=== FILE: README.md ===
# Lazygit panel session controller

A model of `LazygitPanel` in `src/lazygitPanel.ts`, the controller that runs lazygit in a
pseudo-terminal (node-pty) and shows it in a VS Code webview running xterm.js. The
controller:

- spawns lazygit, and falls back to a platform shell with `lazygit\r` typed into it when
  that spawn throws;
- queues pty output until the webview sends `ready`, then posts the queue front to back
  as `data` messages and forwards later output at once;
- relays the webview's `data` keystrokes and `resize` requests to the pty;
- on dispose, kills the pty, disposes the panel and pops every registered listener.

`effects.dfy` (module `Host`) records every call the controller makes into VS Code or
node-pty as one `Effect` in an ordered trace. Seven views are read off a trace:

- `DataPosted`: the payloads of the `data` messages posted to the webview;
- `StatePosts`: the cwds of the `set-state` messages posted to the webview, the only
  other kind of post;
- `PtyInput`: what was written to the pty;
- `Resizes`: the dimensions passed to the pty's `resize`, in order;
- `Kills`: how many times the pty was killed;
- `PanelDisposals`: how many times the webview panel was disposed;
- `Releases`: the registered listeners released, in releasing order.

`lazygit_panel.dfy` (module `Panel`) has two layers:

- **Pure step functions.** `Session` is the controller state and `Start`, `AfterPtyData`,
  `AfterMessage` and `AfterDispose` are its transitions. `Inv` is the controller
  invariant, stated over the `History` of what the session has been fed. `Run` folds a
  sequence of host `Event`s over a session.
- **The class.** `LazygitPanel` has the source's fields (`ready` for `_isWebviewReady`,
  `buffer` for `_dataBuffer`, `disposables` for `_disposables`) plus the effect trace.
  Its handlers are proved to perform exactly those step functions and to keep `Inv`. The
  flush on `ready` and the disposal pop are `while` loops.

The platform (`process.platform === "win32"`) is a parameter, `isWin32`. So is whether
each spawn throws (`primarySpawnOk`, `fallbackSpawnOk`).

## Model

| member | source | states |
|---|---|---|
| Panel.PrimaryProgram | src/lazygitPanel.ts:40 | Definition, no contract: `lazygit.exe` on win32, `lazygit` elsewhere. |
| Panel.FallbackShell | src/lazygitPanel.ts:52 | Definition, no contract: `cmd.exe` on win32, `bash` elsewhere. |
| Panel.Launch | src/lazygitPanel.ts:40-61 | lazygit (`lazygit.exe` on win32) is spawned first. The shell (`cmd.exe`/`bash`) is spawned second, and only when that throws: one effect when lazygit starts, three when the shell starts (the third being the write of `lazygit\r`), two when both throw. A session exists iff one of the two succeeds, and the program left running is the primary one iff its spawn succeeded. Every spawn uses `xterm-256color`, 80×24 and the given cwd. A spawn succeeds exactly when it is the one left running. |
| Panel.LaunchInput | src/lazygitPanel.ts:53-60 | Starting the pty posts nothing and neither resizes nor kills it. The only pty input is `lazygit\r`, written only into a fallback shell that started. |
| Panel.LaunchLeavesPanel | src/lazygitPanel.ts:40-61 | Starting the pty releases no listener, disposes no panel and posts no `set-state`. |
| Panel.Flush | src/lazygitPanel.ts:73-76 | Draining a queue makes one post per queued chunk. The i-th post is the `data` message carrying the i-th chunk. |
| Panel.FlushPostsInOrder | src/lazygitPanel.ts:70-76 | The data posted by a flush is exactly the queue, in queue order. A flush writes nothing to the pty and kills nothing. |
| Panel.FlushResizesNothing | src/lazygitPanel.ts:73-76 | A flush does not resize the pty. |
| Panel.FlushLeavesPanel | src/lazygitPanel.ts:73-76 | A flush releases no listener, disposes no panel and posts no `set-state`: it posts only `data`. |
| Panel.ReleaseAll | src/lazygitPanel.ts:106-111 | Popping the disposables releases each one exactly once, last registered first. |
| Panel.ReleaseAllIsQuiet | src/lazygitPanel.ts:106-111 | Releasing listeners posts no data and does not write to, resize or kill the pty. |
| Panel.ReleasesOfReleaseAll | src/lazygitPanel.ts:106-111 | The listeners released by popping the list are exactly the list reversed, each once. Popping neither disposes the panel nor posts `set-state`. |
| Panel.Announce | src/lazygitPanel.ts:16-27 | Definition, no contract: what `createOrShow` does before the session starts. It creates the panel with view type `lazygit`, scripts enabled and context retained, then posts `set-state` with the cwd. |
| Panel.Start | src/lazygitPanel.ts:36-101 | Definition, no contract: the state the constructor leaves. It is not ready, with an empty queue and the message and dispose listeners registered in that order. Its trace is the prelude, the spawn effects, then the html. |
| Panel.AfterPtyData | src/lazygitPanel.ts:91-97 | Definition, no contract: the pty `onData` listener. Once ready it appends a `data` post of the chunk; before that it appends the chunk to the queue. |
| Panel.AfterMessage | src/lazygitPanel.ts:69-84 | Definition, no contract: the message listener. `ready` sets the flag, empties the queue and appends its flush. `data` appends a pty write of the payload and `resize` a pty resize with the message's dimensions. Any other command changes nothing. |
| Panel.AfterDispose | src/lazygitPanel.ts:103-112 | Definition, no contract: `dispose` appends the kill, the panel dispose and the releases of the listeners, last first, and empties the list. |
| Panel.StartEstablishesInv | src/lazygitPanel.ts:36-101 | After construction the panel is not ready, its queue is empty and no data has been posted. The pty input is `lazygit\r` when the fallback ran and nothing otherwise. Nothing has been killed. |
| Panel.StartResizesNothing | src/lazygitPanel.ts:36-101 | A session starts with the pty never resized, when nothing before it resized the pty. |
| Panel.StartPanelViews | src/lazygitPanel.ts:36-101 | A session starts with the message and dispose listeners registered, in that order. It has released nothing, disposed no panel and posted no `set-state` beyond what was done before it. |
| Panel.PtyDataPreservesInv | src/lazygitPanel.ts:91-97 | Pty output leaves the ready flag unchanged. A pty chunk is queued at the end of the buffer with nothing posted before `ready`, and is posted at once after it. Either way, posted data followed by the queue stays equal to all chunks received, in order. |
| Panel.MessageViews | src/lazygitPanel.ts:69-84 | `ready` posts exactly the queued chunks. `data` writes its payload to the pty unchanged. `resize` passes its `cols` and `rows` to the pty unchanged and unvalidated, and it is the only message that resizes. `resize` and any other command post no data and write nothing. No message kills the pty. |
| Panel.MessageLeavesPanel | src/lazygitPanel.ts:69-84 | No webview message releases a listener, disposes the panel, posts `set-state` or changes the disposables. With `MessageViews` this means `ready` posts only its queued `data`, and `resize` and any other command post nothing at all. |
| Panel.MessagePreservesInv | src/lazygitPanel.ts:69-84 | Every webview message keeps the controller invariant. Exactly a `ready` message sets the flag, and no message clears it. After `ready` the flag is set, the queue is empty and all chunks received have been posted. A `data` payload is appended to the pty input. |
| Panel.RepeatedReadyIsSilent | src/lazygitPanel.ts:70-76 | Once ready, another `ready` leaves the session unchanged and posts nothing. |
| Panel.DisposeViews | src/lazygitPanel.ts:103-112 | `dispose` posts no data, does not write to or resize the pty, and kills it exactly once. |
| Panel.DisposePanelViews | src/lazygitPanel.ts:103-112 | `dispose` disposes the panel exactly once and releases the registered listeners, last registered first. It posts no `set-state` and leaves the disposables list empty. |
| Panel.DisposePreservesInv | src/lazygitPanel.ts:103-112 | `dispose` keeps the invariant with one more kill per call. |
| Panel.SecondDisposeKillsAgain | src/lazygitPanel.ts:103-112 | `dispose` has no guard. A second call kills the pty and disposes the panel again, and releases nothing. |
| Panel.StepPreservesInv | src/lazygitPanel.ts:67-100 | Every handler keeps the controller invariant: pty output, webview messages and dispose. |
| Panel.RunPreservesInv | src/lazygitPanel.ts:67-100 | Any sequence of handler calls keeps the controller invariant. |
| Panel.StepResizes | src/lazygitPanel.ts:81-82 | Of all handlers, only a webview `resize` resizes the pty, once, with the requested dimensions. |
| Panel.RunForwardsResizes | src/lazygitPanel.ts:81-82 | Over any sequence of handler calls, the pty's resizes grow by exactly the webview's resize requests, in order and unchanged. |
| Panel.StepPanelViews | src/lazygitPanel.ts:67-112 | Of all handlers, only `dispose` touches the listeners or the panel. It releases the current list, empties it and disposes the panel once. No handler posts `set-state`. |
| Panel.RunKeepsListeners | src/lazygitPanel.ts:85-112 | Over any events, the registered listeners stay registered until the first `dispose`, and none remain after it. |
| Panel.RunTearsDown | src/lazygitPanel.ts:67-112 | Over any events, the listeners are released once, by the first `dispose`, and later calls release nothing. The panel is disposed once per `dispose` call, and no `set-state` is posted. |
| Panel.StepReady | src/lazygitPanel.ts:70-71 | Only a webview `ready` sets the ready flag, and no handler clears it. |
| Panel.ReadyTracksMessage | src/lazygitPanel.ts:70-71 | After any sequence of events the flag is set exactly when it was set before or the webview sent `ready` among them. |
| Panel.RunExtendsTrace | src/lazygitPanel.ts:67-112 | The handlers only append effects. Whatever has been done to the panel and the pty stays in place. |
| Panel.SessionDelivers | src/lazygitPanel.ts:36-112 | For any sequence of host events after start: the posted data followed by the queue is all pty output, in arrival order. The session is ready exactly when the webview has sent `ready`. Until then nothing is posted; from then on everything is. The pty receives the launch command (fallback only) followed by exactly the webview's keystrokes. It is resized exactly as the webview requested, in order. It is killed once per dispose call. |
| Panel.SessionTearsDown | src/lazygitPanel.ts:36-112 | For any sequence of host events after start: the message and dispose listeners stay registered until the first dispose call. That call releases them, dispose listener first, and later calls release nothing. The panel is disposed once per dispose call. No `set-state` is posted beyond what was posted before the session, so every post after the start is a `data` post. |
| Panel.SetStateBeforeSession | src/lazygitPanel.ts:16-29 | A panel opened by `createOrShow` is created, then has its cwd posted as `set-state`, and only then is lazygit spawned. This holds whatever the session does later. The `set-state` post is not a `data` message, so it never goes through the ready queue. |
| Panel.SetStatePostedWithoutSession | src/lazygitPanel.ts:16-61 | When both spawns throw, `createOrShow` has still created the panel and posted `set-state` with the cwd. The panel is left with no html and no listeners, and nothing was posted as data or written to the pty. |
| Panel.LazygitPanel.constructor | src/lazygitPanel.ts:36-101 | The constructor leaves the spawn effects, then the html, on the panel's trace. It registers the message and dispose listeners in that order, starts not ready with an empty queue, and establishes the invariant. |
| Panel.LazygitPanel.CreateOrShow | src/lazygitPanel.ts:13-30 | Creates the panel (view type `lazygit`, scripts enabled, context retained), posts `set-state` with the cwd, then starts the session on it. A session exists iff one spawn succeeds. Otherwise the panel is left open with only its creation, the `set-state` post and the two failed spawns. |
| Panel.LazygitPanel.Revive | src/lazygitPanel.ts:32-34 | Starts a session on a restored panel with nothing posted before it. A session exists iff one spawn succeeds. Otherwise the restored panel is left blank, with only the two failed spawns. |
| Panel.LazygitPanel.OnPtyData | src/lazygitPanel.ts:91-97 | Performs `AfterPtyData`: queue before ready, post after. Keeps the invariant with the chunk added to what was received. |
| Panel.LazygitPanel.OnMessage | src/lazygitPanel.ts:67-88 | Performs `AfterMessage` for every command and keeps the invariant. |
| Panel.LazygitPanel.DrainBuffer | src/lazygitPanel.ts:72-76 | The shift loop leaves the queue empty. It appends to the trace exactly the flush of the old queue, front to back. |
| Panel.LazygitPanel.Dispose | src/lazygitPanel.ts:103-112 | Kills the pty, then disposes the panel, then pops and releases every listener, last first. The list ends empty and the invariant holds with one more kill. |

## Left out

- The webview's HTML and JavaScript (src/lazygitPanel.ts:114-193), an embedded xterm.js client with a debounced resize timer. Calling it is recorded as one `SetHtml` effect.
- The panel title (`path.basename(cwd)`), the editor-column choice, and the environment passed to the pty (`process.env`).
- The internals of VS Code and node-pty (`createWebviewPanel`, `postMessage`, `pty.spawn`, `write`, `resize`, `kill`, `panel.dispose`, a listener's `dispose`). Each call is only recorded as an effect, and whether a spawn throws is a parameter.
- Re-entrancy. `panel.dispose()` at line 105 may make the host fire the `onDidDispose` listener registered at line 100, which calls `dispose` again. Handlers are modelled as atomic calls, made one after another.
- The host no longer delivering events to listeners that have been released. The model lets any event follow any other.
- The `if (x)` guard in the pop loop. The list only ever holds the two listeners, so the guard is always true.
- JavaScript messages whose fields have the wrong type. `cols`/`rows` are integers and `data` is a string, forwarded without validation as the source does.
- Panel.LazygitPanel.constructor: requires one of the two spawns to succeed. When both throw, the exception escapes the constructor and no session exists. The webview panel itself stays open without html or listeners. `Launch` models that outcome as `Threw`, and `CreateOrShow` and `Revive` return it as `Stranded` with the effects left on the panel. The exception itself is not modelled.
- Panel.LazygitPanel.DrainBuffer: the loop works on a local copy of the queue and trace and writes them back at the end, instead of shifting the field in place. Handlers are atomic, so nothing can observe the intermediate states.
- Panel.LazygitPanel.Dispose: the pop loop works on a local copy of the list and writes it back at the end. The reason is the same.
- The pty `onData` subscription. The source does not keep it among the disposables, so it is never released.
- src/extension.ts. It registers a command that opens a plain integrated terminal and never uses `LazygitPanel`. Its missing-directory error message is not part of this model.
- The restoration serializer that would call `revive` is not part of this model. `Revive` takes the saved cwd as given.
- The code does not do the following, and the model follows the code:
  - `dispose` is not idempotent: a second call kills again (`SecondDisposeKillsAgain`);
  - resize dimensions are not validated;
  - there is no `refresh` command (it falls into "any other command");
  - there is no process-exit listener;
  - a failure of both spawns is not reported to the user.

=== FILE: effects.dfy ===
/**
 * The observable side of the VS Code webview panel and the node-pty process that
 * the Lazygit panel drives. Neither library is modelled; every call the panel makes
 * into them is recorded, in order, as one `Effect` in a trace.
 */
module Host {

  /** A message the panel posts to its webview. */
  datatype Outbound =
    | DataOut(data: string)     // `{ command: "data", data }`
    | SetState(cwd: string)     // `{ command: "set-state", state: { cwd } }`

  /** The listeners the panel registers in its disposables list. */
  datatype Disposable =
    | MessageListener           // the webview `onDidReceiveMessage` subscription
    | DisposeListener           // the panel `onDidDispose` subscription

  /** One call from the panel into the editor host or the pty library. */
  datatype Effect =
    | CreatePanel(viewType: string, enableScripts: bool, retainContextWhenHidden: bool)
    | Post(msg: Outbound)
    | Spawn(file: string, termName: string, cols: int, rows: int, cwd: string, ok: bool)
    | PtyWrite(data: string)
    | PtyResize(cols: int, rows: int)
    | PtyKill
    | SetHtml
    | PanelDispose
    | Release(item: Disposable)

  /** The payload an effect contributes to the webview's data stream. */
  function DataOf(e: Effect): seq<string>
  {
    if e.Post? && e.msg.DataOut? then [e.msg.data] else []
  }

  /** The input an effect contributes to the pty. */
  function WriteOf(e: Effect): seq<string>
  {
    if e.PtyWrite? then [e.data] else []
  }

  /** The dimensions an effect passes to the pty's `resize`. */
  function ResizeOf(e: Effect): seq<(int, int)>
  {
    if e.PtyResize? then [(e.cols, e.rows)] else []
  }

  /** An effect that posts no data and does not write to, resize or kill the pty. */
  predicate Quiet(e: Effect)
  {
    !(e.Post? && e.msg.DataOut?) && !e.PtyWrite? && !e.PtyResize? && !e.PtyKill?
  }

  /** The payloads of every `data` message posted to the webview, in posting order. */
  function DataPosted(t: seq<Effect>): seq<string>
  {
    if t == [] then [] else DataPosted(t[..|t| - 1]) + DataOf(t[|t| - 1])
  }

  /** Everything written to the pty's input, in writing order. */
  function PtyInput(t: seq<Effect>): seq<string>
  {
    if t == [] then [] else PtyInput(t[..|t| - 1]) + WriteOf(t[|t| - 1])
  }

  /** Every resize passed to the pty, in order. */
  function Resizes(t: seq<Effect>): seq<(int, int)>
  {
    if t == [] then [] else Resizes(t[..|t| - 1]) + ResizeOf(t[|t| - 1])
  }

  /** How many times the pty was killed. */
  function Kills(t: seq<Effect>): nat
  {
    if t == [] then 0 else Kills(t[..|t| - 1]) + (if t[|t| - 1].PtyKill? then 1 else 0)
  }

  /** Appending one effect to a trace appends exactly what that effect contributes. */
  lemma ViewsSnoc(t: seq<Effect>, e: Effect)
    ensures DataPosted(t + [e]) == DataPosted(t) + DataOf(e)
    ensures PtyInput(t + [e]) == PtyInput(t) + WriteOf(e)
    ensures Resizes(t + [e]) == Resizes(t) + ResizeOf(e)
    ensures Kills(t + [e]) == Kills(t) + (if e.PtyKill? then 1 else 0)
  {
    assert (t + [e])[..|t|] == t;
  }

  /** The data, input and kill views of a trace distribute over concatenation. */
  lemma {:induction false} ViewsAppend(a: seq<Effect>, b: seq<Effect>)
    ensures DataPosted(a + b) == DataPosted(a) + DataPosted(b)
    ensures PtyInput(a + b) == PtyInput(a) + PtyInput(b)
    ensures Kills(a + b) == Kills(a) + Kills(b)
  {
    if b == [] {
      assert a + b == a;
    } else {
      var last := b[|b| - 1];
      assert a + b == (a + b[..|b| - 1]) + [last];
      assert b == b[..|b| - 1] + [last];
      ViewsAppend(a, b[..|b| - 1]);
      ViewsSnoc(a + b[..|b| - 1], last);
      ViewsSnoc(b[..|b| - 1], last);
    }
  }

  /** The resizes of a trace distribute over concatenation. */
  lemma {:induction false} ResizesAppend(a: seq<Effect>, b: seq<Effect>)
    ensures Resizes(a + b) == Resizes(a) + Resizes(b)
  {
    if b == [] {
      assert a + b == a;
    } else {
      var last := b[|b| - 1];
      assert a + b == (a + b[..|b| - 1]) + [last];
      assert b == b[..|b| - 1] + [last];
      ResizesAppend(a, b[..|b| - 1]);
      ViewsSnoc(a + b[..|b| - 1], last);
      ViewsSnoc(b[..|b| - 1], last);
    }
  }

  /** The listener an effect releases. */
  function ReleaseOf(e: Effect): seq<Disposable>
  {
    if e.Release? then [e.item] else []
  }

  /** The cwd an effect posts as `set-state`. */
  function StateOf(e: Effect): seq<string>
  {
    if e.Post? && e.msg.SetState? then [e.msg.cwd] else []
  }

  /** Every listener released, in releasing order. */
  function Releases(t: seq<Effect>): seq<Disposable>
  {
    if t == [] then [] else Releases(t[..|t| - 1]) + ReleaseOf(t[|t| - 1])
  }

  /** The cwds of every `set-state` message posted to the webview, in posting order. */
  function StatePosts(t: seq<Effect>): seq<string>
  {
    if t == [] then [] else StatePosts(t[..|t| - 1]) + StateOf(t[|t| - 1])
  }

  /** How many times the webview panel was disposed. */
  function PanelDisposals(t: seq<Effect>): nat
  {
    if t == [] then 0 else PanelDisposals(t[..|t| - 1]) + (if t[|t| - 1].PanelDispose? then 1 else 0)
  }

  /** Appending one effect to a trace appends exactly what it releases, disposes and posts as state. */
  lemma PanelViewsSnoc(t: seq<Effect>, e: Effect)
    ensures Releases(t + [e]) == Releases(t) + ReleaseOf(e)
    ensures StatePosts(t + [e]) == StatePosts(t) + StateOf(e)
    ensures PanelDisposals(t + [e]) == PanelDisposals(t) + (if e.PanelDispose? then 1 else 0)
  {
    assert (t + [e])[..|t|] == t;
  }

  /** The release, state-post and panel-disposal views distribute over concatenation. */
  lemma {:induction false} PanelViewsAppend(a: seq<Effect>, b: seq<Effect>)
    ensures Releases(a + b) == Releases(a) + Releases(b)
    ensures StatePosts(a + b) == StatePosts(a) + StatePosts(b)
    ensures PanelDisposals(a + b) == PanelDisposals(a) + PanelDisposals(b)
  {
    if b == [] {
      assert a + b == a;
    } else {
      var last := b[|b| - 1];
      assert a + b == (a + b[..|b| - 1]) + [last];
      assert b == b[..|b| - 1] + [last];
      PanelViewsAppend(a, b[..|b| - 1]);
      PanelViewsSnoc(a + b[..|b| - 1], last);
      PanelViewsSnoc(b[..|b| - 1], last);
    }
  }

  /** A trace that releases nothing, disposes no panel and posts no state leaves those views empty. */
  lemma {:induction false} NoPanelEffects(t: seq<Effect>)
    requires forall i :: 0 <= i < |t| ==> !t[i].Release? && !t[i].PanelDispose? && StateOf(t[i]) == []
    ensures Releases(t) == [] && StatePosts(t) == [] && PanelDisposals(t) == 0
  {
    if t != [] {
      assert !t[|t| - 1].Release? && !t[|t| - 1].PanelDispose? && StateOf(t[|t| - 1]) == [];
      NoPanelEffects(t[..|t| - 1]);
    }
  }

  /** A trace without a `PtyResize` effect resizes nothing. */
  lemma {:induction false} NoResizes(t: seq<Effect>)
    requires forall i :: 0 <= i < |t| ==> !t[i].PtyResize?
    ensures Resizes(t) == []
  {
    if t != [] {
      assert !t[|t| - 1].PtyResize?;
      NoResizes(t[..|t| - 1]);
    }
  }

  /** A trace of quiet effects posts no data and does not write to, resize or kill the pty. */
  lemma {:induction false} QuietTrace(t: seq<Effect>)
    requires forall i :: 0 <= i < |t| ==> Quiet(t[i])
    ensures DataPosted(t) == [] && PtyInput(t) == [] && Resizes(t) == [] && Kills(t) == 0
  {
    if t != [] {
      assert Quiet(t[|t| - 1]);
      QuietTrace(t[..|t| - 1]);
    }
  }
}

=== FILE: lazygit_panel.dfy ===
/**
 * The session controller of the Lazygit webview panel: it launches lazygit in a pty,
 * queues the pty's output until the webview reports that it is ready, relays the
 * webview's keystrokes and resize requests to the pty, and tears everything down on
 * dispose. Calls into VS Code and node-pty are recorded as `Host.Effect`s.
 */
module Panel {
  import opened Host

  const ViewType := "lazygit"
  const TermName := "xterm-256color"
  const InitialCols := 80
  const InitialRows := 24
  /** What the fallback shell is sent so that it starts lazygit. */
  const LaunchCommand := "lazygit\r"

  /**
   * A message received from the webview, by its `command` field. `Other` stands for a
   * message whose command is none of `ready`, `data` and `resize`.
   */
  datatype Message =
    | Ready
    | Data(data: string)
    | Resize(cols: int, rows: int)
    | Other(command: string)

  /**
   * The outcome of starting the pty: the spawn attempts (and the launch command
   * typed into a fallback shell), and the program left running; or, when both
   * spawns throw, the attempts made before the exception escaped.
   */
  datatype LaunchOutcome =
    | Launched(effects: seq<Effect>, program: string)
    | Threw(effects: seq<Effect>)

  function PrimaryProgram(isWin32: bool): string
  {
    if isWin32 then "lazygit.exe" else "lazygit"
  }

  function FallbackShell(isWin32: bool): string
  {
    if isWin32 then "cmd.exe" else "bash"
  }

  function SpawnAttempt(file: string, cwd: string, ok: bool): Effect
  {
    Spawn(file, TermName, InitialCols, InitialRows, cwd, ok)
  }

  /**
   * Spawn selection: lazygit itself first; if that spawn throws, a shell of the
   * platform with the launch command typed into it; if that throws too, the
   * exception propagates and no session exists.
   */
  function Launch(cwd: string, isWin32: bool, primaryOk: bool, fallbackOk: bool): (r: LaunchOutcome)
    ensures r.Launched? <==> primaryOk || fallbackOk
    ensures |r.effects| == if primaryOk then 1 else if fallbackOk then 3 else 2
    ensures |r.effects| > 0 && r.effects[0].Spawn? && r.effects[0].file == PrimaryProgram(isWin32)
    ensures !primaryOk ==> |r.effects| > 1 && r.effects[1].Spawn? && r.effects[1].file == FallbackShell(isWin32)
    ensures r.Launched? ==> r.program == if primaryOk then PrimaryProgram(isWin32) else FallbackShell(isWin32)
    ensures forall e :: e in r.effects && e.Spawn? ==>
      e.termName == TermName && e.cwd == cwd && e.cols == InitialCols && e.rows == InitialRows &&
      (e.ok <==> r.Launched? && e.file == r.program)
    ensures !primaryOk && fallbackOk ==> r.effects[2] == PtyWrite(LaunchCommand)
  {
    var first := SpawnAttempt(PrimaryProgram(isWin32), cwd, primaryOk);
    if primaryOk then
      Launched([first], PrimaryProgram(isWin32))
    else
      var second := SpawnAttempt(FallbackShell(isWin32), cwd, fallbackOk);
      if fallbackOk then Launched([first, second, PtyWrite(LaunchCommand)], FallbackShell(isWin32))
      else Threw([first, second])
  }

  /**
   * Starting the pty posts nothing and neither resizes nor kills it; the only pty
   * input is the launch command, typed only into a fallback shell that started.
   */
  lemma LaunchInput(cwd: string, isWin32: bool, primaryOk: bool, fallbackOk: bool)
    ensures var effects := Launch(cwd, isWin32, primaryOk, fallbackOk).effects;
      && PtyInput(effects) == (if !primaryOk && fallbackOk then [LaunchCommand] else [])
      && DataPosted(effects) == [] && Resizes(effects) == [] && Kills(effects) == 0
  {
    var first := SpawnAttempt(PrimaryProgram(isWin32), cwd, primaryOk);
    var second := SpawnAttempt(FallbackShell(isWin32), cwd, fallbackOk);
    var effects := Launch(cwd, isWin32, primaryOk, fallbackOk).effects;
    var none: seq<Effect> := [];
    assert DataPosted([first]) == [] && PtyInput([first]) == [] && Resizes([first]) == [] && Kills([first]) == 0 by {
      ViewsSnoc(none, first);
      assert none + [first] == [first];
    }
    if primaryOk {
      assert effects == [first];
    } else {
      var spawns := [first, second];
      assert DataPosted(spawns) == [] && PtyInput(spawns) == [] && Resizes(spawns) == [] && Kills(spawns) == 0 by {
        ViewsSnoc([first], second);
        assert [first] + [second] == spawns;
      }
      if fallbackOk {
        var write := PtyWrite(LaunchCommand);
        assert effects == spawns + [write];
        ViewsSnoc(spawns, write);
      } else {
        assert effects == spawns;
      }
    }
  }

  /** The posts that drain a queue of pty chunks front to back. */
  function Flush(pending: seq<string>): (r: seq<Effect>)
    ensures |r| == |pending|
    ensures forall i :: 0 <= i < |r| ==> r[i] == Post(DataOut(pending[i]))
  {
    if pending == [] then [] else [Post(DataOut(pending[0]))] + Flush(pending[1..])
  }

  /** Flushing posts every queued chunk as data, in queue order, and touches nothing else. */
  lemma {:induction false} FlushPostsInOrder(pending: seq<string>)
    ensures DataPosted(Flush(pending)) == pending
    ensures PtyInput(Flush(pending)) == [] && Kills(Flush(pending)) == 0
  {
    if pending != [] {
      var e := Post(DataOut(pending[0]));
      var rest := pending[1..];
      var none: seq<Effect> := [];
      assert Flush(pending) == [e] + Flush(rest);
      assert DataPosted([e]) == [pending[0]] && PtyInput([e]) == [] && Kills([e]) == 0 by {
        ViewsSnoc(none, e);
        assert none + [e] == [e];
      }
      ViewsAppend([e], Flush(rest));
      FlushPostsInOrder(rest);
      assert [pending[0]] + rest == pending;
    }
  }

  /** Flushing the queue does not resize the pty. */
  lemma FlushResizesNothing(pending: seq<string>)
    ensures Resizes(Flush(pending)) == []
  {
    var posts := Flush(pending);
    forall i | 0 <= i < |posts|
      ensures !posts[i].PtyResize?
    {
      assert posts[i] == Post(DataOut(pending[i]));
    }
    NoResizes(posts);
  }

  /** Flushing the queue releases nothing, disposes no panel and posts no state. */
  lemma FlushLeavesPanel(pending: seq<string>)
    ensures Releases(Flush(pending)) == [] && StatePosts(Flush(pending)) == [] && PanelDisposals(Flush(pending)) == 0
  {
    var posts := Flush(pending);
    forall i | 0 <= i < |posts|
      ensures !posts[i].Release? && !posts[i].PanelDispose? && StateOf(posts[i]) == []
    {
      assert posts[i] == Post(DataOut(pending[i]));
    }
    NoPanelEffects(posts);
  }

  /** The releases made by popping a disposables list until it is empty. */
  function ReleaseAll(items: seq<Disposable>): (r: seq<Effect>)
    ensures |r| == |items|
    ensures forall i :: 0 <= i < |r| ==> r[i] == Release(items[|items| - 1 - i])
  {
    if items == [] then [] else [Release(items[|items| - 1])] + ReleaseAll(items[..|items| - 1])
  }

  /** Releasing listeners posts nothing and does not write to, resize or kill the pty. */
  lemma {:induction false} ReleaseAllIsQuiet(items: seq<Disposable>)
    ensures DataPosted(ReleaseAll(items)) == []
    ensures PtyInput(ReleaseAll(items)) == [] && Resizes(ReleaseAll(items)) == [] && Kills(ReleaseAll(items)) == 0
  {
    QuietTrace(ReleaseAll(items));
  }

  /** A disposables list, last-registered first. */
  function Reversed(items: seq<Disposable>): seq<Disposable>
  {
    if items == [] then [] else [items[|items| - 1]] + Reversed(items[..|items| - 1])
  }

  /**
   * Releasing a disposables list releases each listener once, last-registered first,
   * and neither disposes the panel nor posts state.
   */
  lemma {:induction false} ReleasesOfReleaseAll(items: seq<Disposable>)
    ensures Releases(ReleaseAll(items)) == Reversed(items)
    ensures StatePosts(ReleaseAll(items)) == [] && PanelDisposals(ReleaseAll(items)) == 0
  {
    if items != [] {
      var e := Release(items[|items| - 1]);
      var rest := items[..|items| - 1];
      var none: seq<Effect> := [];
      ReleasesOfReleaseAll(rest);
      assert ReleaseAll(items) == [e] + ReleaseAll(rest);
      assert Releases([e]) == [items[|items| - 1]] && StatePosts([e]) == [] && PanelDisposals([e]) == 0 by {
        PanelViewsSnoc(none, e);
        assert none + [e] == [e];
      }
      PanelViewsAppend([e], ReleaseAll(rest));
    }
  }

  /** The controller's own state: readiness flag, output queue, disposables, and the effect trace. */
  datatype Session = Session(ready: bool, buffer: seq<string>, disposables: seq<Disposable>, trace: seq<Effect>)

  /**
   * What the session has been fed so far: every pty chunk, every `data` payload
   * from the webview, what the constructor typed into the pty, and how many times
   * `dispose` was called.
   */
  datatype History = History(received: seq<string>, typed: seq<string>, launchInput: seq<string>, disposeCalls: nat)

  /**
   * The controller invariant: the queue is empty once the webview is ready; no data
   * is posted before it is; the posted data followed by the queue is exactly the pty
   * output, in order; the pty's input is the launch input followed by the webview's
   * keystrokes; and the pty was killed once per dispose call.
   */
  ghost predicate Inv(s: Session, h: History)
  {
    && (s.ready ==> s.buffer == [])
    && (!s.ready ==> DataPosted(s.trace) == [])
    && DataPosted(s.trace) + s.buffer == h.received
    && PtyInput(s.trace) == h.launchInput + h.typed
    && Kills(s.trace) == h.disposeCalls
  }

  /** What `createOrShow` does to a new panel before the session starts: create it, post its cwd. */
  function Announce(cwd: string): seq<Effect>
  {
    [CreatePanel(ViewType, true, true), Post(SetState(cwd))]
  }

  /**
   * The result of opening a session: a running panel; or, when both spawns throw, the
   * effects left on the panel, which stays open with no session behind it.
   */
  datatype Opening =
    | Opened(panel: LazygitPanel)
    | Stranded(trace: seq<Effect>)

  /**
   * The state the constructor leaves: `prelude` is what was already done to the panel,
   * then the spawns, the html, and the two registered listeners.
   */
  function Start(prelude: seq<Effect>, cwd: string, isWin32: bool, primaryOk: bool, fallbackOk: bool): Session
    requires primaryOk || fallbackOk
  {
    Session(false, [], [MessageListener, DisposeListener],
            prelude + Launch(cwd, isWin32, primaryOk, fallbackOk).effects + [SetHtml])
  }

  function StartHistory(primaryOk: bool): History
  {
    History([], [], if primaryOk then [] else [LaunchCommand], 0)
  }

  /** The pty `onData` listener: forward the chunk once ready, queue it before. */
  function AfterPtyData(s: Session, data: string): Session
  {
    if s.ready then s.(trace := s.trace + [Post(DataOut(data))]) else s.(buffer := s.buffer + [data])
  }

  /** The webview message listener, by command. */
  function AfterMessage(s: Session, msg: Message): Session
  {
    match msg
    case Ready => s.(ready := true, buffer := [], trace := s.trace + Flush(s.buffer))
    case Data(data) => s.(trace := s.trace + [PtyWrite(data)])
    case Resize(cols, rows) => s.(trace := s.trace + [PtyResize(cols, rows)])
    case Other(_) => s
  }

  /** `dispose`: kill, dispose the panel, release every listener last-registered first. */
  function AfterDispose(s: Session): Session
  {
    s.(disposables := [], trace := s.trace + [PtyKill, PanelDispose] + ReleaseAll(s.disposables))
  }

  lemma StartEstablishesInv(prelude: seq<Effect>, cwd: string, isWin32: bool, primaryOk: bool, fallbackOk: bool)
    requires primaryOk || fallbackOk
    requires DataPosted(prelude) == [] && PtyInput(prelude) == [] && Kills(prelude) == 0
    ensures Inv(Start(prelude, cwd, isWin32, primaryOk, fallbackOk), StartHistory(primaryOk))
  {
    var effects := Launch(cwd, isWin32, primaryOk, fallbackOk).effects;
    var launched := prelude + effects;
    assert DataPosted(launched) == [] && Kills(launched) == 0
        && PtyInput(launched) == StartHistory(primaryOk).launchInput by {
      LaunchInput(cwd, isWin32, primaryOk, fallbackOk);
      ViewsAppend(prelude, effects);
    }
    ViewsSnoc(launched, SetHtml);
  }

  /** A session starts with no resize, when nothing before it resized the pty. */
  lemma StartResizesNothing(prelude: seq<Effect>, cwd: string, isWin32: bool, primaryOk: bool, fallbackOk: bool)
    requires primaryOk || fallbackOk
    requires Resizes(prelude) == []
    ensures Resizes(Start(prelude, cwd, isWin32, primaryOk, fallbackOk).trace) == []
  {
    var effects := Launch(cwd, isWin32, primaryOk, fallbackOk).effects;
    var launched := prelude + effects;
    assert Resizes(launched) == [] by {
      LaunchInput(cwd, isWin32, primaryOk, fallbackOk);
      ResizesAppend(prelude, effects);
    }
    ViewsSnoc(launched, SetHtml);
  }

  /** Starting the pty releases no listener, disposes no panel and posts no state. */
  lemma LaunchLeavesPanel(cwd: string, isWin32: bool, primaryOk: bool, fallbackOk: bool)
    ensures var effects := Launch(cwd, isWin32, primaryOk, fallbackOk).effects;
      Releases(effects) == [] && StatePosts(effects) == [] && PanelDisposals(effects) == 0
  {
    var first := SpawnAttempt(PrimaryProgram(isWin32), cwd, primaryOk);
    var second := SpawnAttempt(FallbackShell(isWin32), cwd, fallbackOk);
    var effects := Launch(cwd, isWin32, primaryOk, fallbackOk).effects;
    var none: seq<Effect> := [];
    assert Releases([first]) == [] && StatePosts([first]) == [] && PanelDisposals([first]) == 0 by {
      PanelViewsSnoc(none, first);
      assert none + [first] == [first];
    }
    if primaryOk {
      assert effects == [first];
    } else {
      var spawns := [first, second];
      assert Releases(spawns) == [] && StatePosts(spawns) == [] && PanelDisposals(spawns) == 0 by {
        PanelViewsSnoc([first], second);
        assert [first] + [second] == spawns;
      }
      if fallbackOk {
        var write := PtyWrite(LaunchCommand);
        assert effects == spawns + [write];
        PanelViewsSnoc(spawns, write);
      } else {
        assert effects == spawns;
      }
    }
  }

  /**
   * Starting a session registers the message and dispose listeners, in that order, and
   * releases nothing, disposes no panel and posts no state beyond what `prelude` did.
   */
  lemma StartPanelViews(prelude: seq<Effect>, cwd: string, isWin32: bool, primaryOk: bool, fallbackOk: bool)
    requires primaryOk || fallbackOk
    ensures var s := Start(prelude, cwd, isWin32, primaryOk, fallbackOk);
      && s.disposables == [MessageListener, DisposeListener]
      && Releases(s.trace) == Releases(prelude) && StatePosts(s.trace) == StatePosts(prelude)
      && PanelDisposals(s.trace) == PanelDisposals(prelude)
  {
    var effects := Launch(cwd, isWin32, primaryOk, fallbackOk).effects;
    var launched := prelude + effects;
    assert Releases(launched) == Releases(prelude) && StatePosts(launched) == StatePosts(prelude)
        && PanelDisposals(launched) == PanelDisposals(prelude) by {
      LaunchLeavesPanel(cwd, isWin32, primaryOk, fallbackOk);
      PanelViewsAppend(prelude, effects);
      assert Releases(prelude) + [] == Releases(prelude) && StatePosts(prelude) + [] == StatePosts(prelude);
    }
    PanelViewsSnoc(launched, SetHtml);
    assert Releases(launched) + [] == Releases(launched) && StatePosts(launched) + [] == StatePosts(launched);
  }

  lemma PtyDataPreservesInv(s: Session, h: History, data: string)
    requires Inv(s, h)
    ensures AfterPtyData(s, data).ready == s.ready
    ensures Inv(AfterPtyData(s, data), h.(received := h.received + [data]))
  {
    ViewsSnoc(s.trace, Post(DataOut(data)));
    if s.ready {
      assert DataPosted(s.trace) + [data] == h.received + [data];
    } else {
      assert DataPosted(s.trace) + (s.buffer + [data]) == (DataPosted(s.trace) + s.buffer) + [data];
    }
  }

  /**
   * What a webview message adds to the trace: `ready` posts the queue as data,
   * `data` writes its payload to the pty, `resize` passes its dimensions to the pty
   * unchanged, nothing kills.
   */
  lemma MessageViews(s: Session, msg: Message)
    ensures DataPosted(AfterMessage(s, msg).trace) == DataPosted(s.trace) + (if msg.Ready? then s.buffer else [])
    ensures PtyInput(AfterMessage(s, msg).trace) == PtyInput(s.trace) + (if msg.Data? then [msg.data] else [])
    ensures Resizes(AfterMessage(s, msg).trace) == Resizes(s.trace) + (if msg.Resize? then [(msg.cols, msg.rows)] else [])
    ensures Kills(AfterMessage(s, msg).trace) == Kills(s.trace)
  {
    match msg
    case Ready =>
      assert Resizes(s.trace + Flush(s.buffer)) == Resizes(s.trace) + [] by {
        ResizesAppend(s.trace, Flush(s.buffer));
        FlushResizesNothing(s.buffer);
      }
      ViewsAppend(s.trace, Flush(s.buffer));
      FlushPostsInOrder(s.buffer);
    case Data(data) =>
      ViewsSnoc(s.trace, PtyWrite(data));
    case Resize(cols, rows) =>
      ViewsSnoc(s.trace, PtyResize(cols, rows));
    case Other(_) =>
      assert DataPosted(s.trace) + [] == DataPosted(s.trace) && PtyInput(s.trace) + [] == PtyInput(s.trace)
          && Resizes(s.trace) + [] == Resizes(s.trace);
  }

  /**
   * No webview message releases a listener, disposes the panel or posts state: `ready`
   * posts only data, and `resize` and any other command post nothing at all.
   */
  lemma MessageLeavesPanel(s: Session, msg: Message)
    ensures AfterMessage(s, msg).disposables == s.disposables
    ensures Releases(AfterMessage(s, msg).trace) == Releases(s.trace)
    ensures StatePosts(AfterMessage(s, msg).trace) == StatePosts(s.trace)
    ensures PanelDisposals(AfterMessage(s, msg).trace) == PanelDisposals(s.trace)
  {
    var added := match msg
      case Ready => Flush(s.buffer)
      case Data(data) => [PtyWrite(data)]
      case Resize(cols, rows) => [PtyResize(cols, rows)]
      case Other(_) => [];
    assert Releases(added) == [] && StatePosts(added) == [] && PanelDisposals(added) == 0 by {
      if msg.Ready? {
        FlushLeavesPanel(s.buffer);
      } else {
        forall i | 0 <= i < |added|
          ensures !added[i].Release? && !added[i].PanelDispose? && StateOf(added[i]) == []
        {
        }
        NoPanelEffects(added);
      }
    }
    assert AfterMessage(s, msg).trace == s.trace + added;
    PanelViewsAppend(s.trace, added);
    assert Releases(s.trace) + [] == Releases(s.trace) && StatePosts(s.trace) + [] == StatePosts(s.trace);
  }

  lemma MessagePreservesInv(s: Session, h: History, msg: Message)
    requires Inv(s, h)
    ensures AfterMessage(s, msg).ready == (s.ready || msg.Ready?)
    ensures Inv(AfterMessage(s, msg), if msg.Data? then h.(typed := h.typed + [msg.data]) else h)
  {
    var t := AfterMessage(s, msg);
    var h' := if msg.Data? then h.(typed := h.typed + [msg.data]) else h;
    assert DataPosted(t.trace) + t.buffer == h'.received && (!t.ready ==> DataPosted(t.trace) == []) by {
      MessageViews(s, msg);
      if !msg.Ready? {
        assert DataPosted(s.trace) + [] == DataPosted(s.trace);
      }
    }
    assert PtyInput(t.trace) == h'.launchInput + h'.typed && Kills(t.trace) == h'.disposeCalls by {
      MessageViews(s, msg);
      if msg.Data? {
        assert h.launchInput + (h.typed + [msg.data]) == (h.launchInput + h.typed) + [msg.data];
      } else {
        assert PtyInput(s.trace) + [] == PtyInput(s.trace);
      }
    }
  }

  /** What `dispose` adds to the trace: no data, no pty input, no resize, one kill. */
  lemma DisposeViews(s: Session)
    ensures DataPosted(AfterDispose(s).trace) == DataPosted(s.trace)
    ensures PtyInput(AfterDispose(s).trace) == PtyInput(s.trace)
    ensures Resizes(AfterDispose(s).trace) == Resizes(s.trace)
    ensures Kills(AfterDispose(s).trace) == Kills(s.trace) + 1
  {
    var stopped := s.trace + [PtyKill, PanelDispose];
    assert DataPosted(stopped) == DataPosted(s.trace) && PtyInput(stopped) == PtyInput(s.trace)
        && Resizes(stopped) == Resizes(s.trace) && Kills(stopped) == Kills(s.trace) + 1 by {
      ViewsSnoc(s.trace, PtyKill);
      ViewsSnoc(s.trace + [PtyKill], PanelDispose);
      assert s.trace + [PtyKill] + [PanelDispose] == stopped;
    }
    ReleaseAllIsQuiet(s.disposables);
    assert Resizes(AfterDispose(s).trace) == Resizes(s.trace) by {
      ResizesAppend(stopped, ReleaseAll(s.disposables));
    }
    ViewsAppend(stopped, ReleaseAll(s.disposables));
  }

  /**
   * What `dispose` does to the panel: one panel dispose, the registered listeners
   * released last-registered first, no state posted, and an empty disposables list.
   */
  lemma DisposePanelViews(s: Session)
    ensures AfterDispose(s).disposables == []
    ensures Releases(AfterDispose(s).trace) == Releases(s.trace) + Releases(ReleaseAll(s.disposables))
    ensures StatePosts(AfterDispose(s).trace) == StatePosts(s.trace)
    ensures PanelDisposals(AfterDispose(s).trace) == PanelDisposals(s.trace) + 1
  {
    var stopped := s.trace + [PtyKill, PanelDispose];
    assert Releases(stopped) == Releases(s.trace) && StatePosts(stopped) == StatePosts(s.trace)
        && PanelDisposals(stopped) == PanelDisposals(s.trace) + 1 by {
      PanelViewsSnoc(s.trace, PtyKill);
      PanelViewsSnoc(s.trace + [PtyKill], PanelDispose);
      assert s.trace + [PtyKill] + [PanelDispose] == stopped;
    }
    ReleasesOfReleaseAll(s.disposables);
    PanelViewsAppend(stopped, ReleaseAll(s.disposables));
  }

  lemma DisposePreservesInv(s: Session, h: History)
    requires Inv(s, h)
    ensures Inv(AfterDispose(s), h.(disposeCalls := h.disposeCalls + 1))
  {
    DisposeViews(s);
  }

  /**
   * `dispose` has no guard: a second call kills the pty and disposes the panel again,
   * and releases nothing because the first call emptied the list.
   */
  lemma SecondDisposeKillsAgain(s: Session)
    ensures AfterDispose(AfterDispose(s)).trace == AfterDispose(s).trace + [PtyKill, PanelDispose]
    ensures Kills(AfterDispose(AfterDispose(s)).trace) == Kills(s.trace) + 2
  {
    DisposeViews(s);
    DisposeViews(AfterDispose(s));
    assert ReleaseAll([]) == [];
  }

  /** Once the webview is ready, a further `ready` changes nothing and posts nothing. */
  lemma RepeatedReadyIsSilent(s: Session, h: History)
    requires Inv(s, h) && s.ready
    ensures AfterMessage(s, Ready) == s
  {
    assert s.trace + Flush([]) == s.trace;
  }

  /** Something the host delivers to the session. */
  datatype Event =
    | PtyOutput(data: string)
    | FromWebview(msg: Message)
    | DisposeCall

  function Step(s: Session, e: Event): Session
  {
    match e
    case PtyOutput(data) => AfterPtyData(s, data)
    case FromWebview(msg) => AfterMessage(s, msg)
    case DisposeCall => AfterDispose(s)
  }

  /** The session after the host delivers `events`, one at a time, in order. */
  function Run(s: Session, events: seq<Event>): Session
  {
    if events == [] then s else Step(Run(s, events[..|events| - 1]), events[|events| - 1])
  }

  /** The pty output among `events`, in order. */
  function PtyChunks(events: seq<Event>): seq<string>
  {
    if events == [] then []
    else
      var e := events[|events| - 1];
      PtyChunks(events[..|events| - 1]) + (if e.PtyOutput? then [e.data] else [])
  }

  /** The `data` payloads the webview sent among `events`, in order. */
  function Keystrokes(events: seq<Event>): seq<string>
  {
    if events == [] then []
    else
      var e := events[|events| - 1];
      Keystrokes(events[..|events| - 1]) + (if e.FromWebview? && e.msg.Data? then [e.msg.data] else [])
  }

  function DisposeCount(events: seq<Event>): nat
  {
    if events == [] then 0 else DisposeCount(events[..|events| - 1]) + (if events[|events| - 1].DisposeCall? then 1 else 0)
  }

  /** The resize requests the webview sent among `events`, in order. */
  function ResizeRequests(events: seq<Event>): seq<(int, int)>
  {
    if events == [] then []
    else
      var e := events[|events| - 1];
      ResizeRequests(events[..|events| - 1]) + (if e.FromWebview? && e.msg.Resize? then [(e.msg.cols, e.msg.rows)] else [])
  }

  /** What one event adds to the history. */
  function Record(h: History, e: Event): History
  {
    match e
    case PtyOutput(data) => h.(received := h.received + [data])
    case FromWebview(msg) => if msg.Data? then h.(typed := h.typed + [msg.data]) else h
    case DisposeCall => h.(disposeCalls := h.disposeCalls + 1)
  }

  function Replay(h: History, events: seq<Event>): History
  {
    if events == [] then h else Record(Replay(h, events[..|events| - 1]), events[|events| - 1])
  }

  /** Every handler keeps the controller invariant. */
  lemma StepPreservesInv(s: Session, h: History, e: Event)
    requires Inv(s, h)
    ensures Inv(Step(s, e), Record(h, e))
  {
    match e
    case PtyOutput(data) => PtyDataPreservesInv(s, h, data);
    case FromWebview(msg) => MessagePreservesInv(s, h, msg);
    case DisposeCall => DisposePreservesInv(s, h);
  }

  lemma {:induction false} RunPreservesInv(s: Session, h: History, events: seq<Event>)
    requires Inv(s, h)
    ensures Inv(Run(s, events), Replay(h, events))
  {
    if events != [] {
      var prefix := events[..|events| - 1];
      RunPreservesInv(s, h, prefix);
      StepPreservesInv(Run(s, prefix), Replay(h, prefix), events[|events| - 1]);
    }
  }

  /** The handlers only ever append to the trace: what has been done stays done, in place. */
  lemma {:induction false} RunExtendsTrace(s: Session, events: seq<Event>)
    ensures s.trace <= Run(s, events).trace
  {
    if events != [] {
      var before := Run(s, events[..|events| - 1]);
      RunExtendsTrace(s, events[..|events| - 1]);
      assert before.trace <= Step(before, events[|events| - 1]).trace;
    }
  }

  /**
   * A panel opened by `createOrShow` has its cwd posted as `set-state` right after it is
   * created and before lazygit is spawned, whatever the session does afterwards; that
   * post is not a `data` message, so it bypasses the ready queue.
   */
  lemma SetStateBeforeSession(cwd: string, isWin32: bool, primaryOk: bool, fallbackOk: bool, events: seq<Event>)
    requires primaryOk || fallbackOk
    ensures var start := Start(Announce(cwd), cwd, isWin32, primaryOk, fallbackOk);
      var t := Run(start, events).trace;
      && |t| > 3
      && t[0] == CreatePanel(ViewType, true, true)
      && t[1] == Post(SetState(cwd)) && DataOf(t[1]) == []
      && t[2] == SpawnAttempt(PrimaryProgram(isWin32), cwd, primaryOk)
  {
    var start := Start(Announce(cwd), cwd, isWin32, primaryOk, fallbackOk);
    RunExtendsTrace(start, events);
  }

  /**
   * When both spawns throw, `createOrShow` has still created the panel and posted its
   * cwd as `set-state`; the panel is left without html and without listeners, and
   * nothing reached the pty.
   */
  lemma SetStatePostedWithoutSession(cwd: string, isWin32: bool)
    ensures var t := Announce(cwd) + Launch(cwd, isWin32, false, false).effects;
      && !Launch(cwd, isWin32, false, false).Launched?
      && |t| == 4 && t[0] == CreatePanel(ViewType, true, true) && t[1] == Post(SetState(cwd))
      && SetHtml !in t
      && DataPosted(t) == [] && PtyInput(t) == [] && Kills(t) == 0
  {
    var t := Announce(cwd) + Launch(cwd, isWin32, false, false).effects;
    assert t == Announce(cwd) + [SpawnAttempt(PrimaryProgram(isWin32), cwd, false),
                                 SpawnAttempt(FallbackShell(isWin32), cwd, false)];
    QuietTrace(t);
  }

  /** Only a webview `resize` resizes the pty, and with the requested dimensions. */
  lemma StepResizes(s: Session, e: Event)
    ensures Resizes(Step(s, e).trace)
         == Resizes(s.trace) + (if e.FromWebview? && e.msg.Resize? then [(e.msg.cols, e.msg.rows)] else [])
  {
    match e
    case PtyOutput(data) =>
      ViewsSnoc(s.trace, Post(DataOut(data)));
      assert Resizes(s.trace) + [] == Resizes(s.trace);
    case FromWebview(msg) =>
      MessageViews(s, msg);
    case DisposeCall =>
      DisposeViews(s);
      assert Resizes(s.trace) + [] == Resizes(s.trace);
  }

  /** Over any events, the pty's resizes grow by exactly the webview's resize requests, in order. */
  lemma {:induction false} RunForwardsResizes(s: Session, events: seq<Event>)
    ensures Resizes(Run(s, events).trace) == Resizes(s.trace) + ResizeRequests(events)
  {
    if events == [] {
      assert Resizes(s.trace) + [] == Resizes(s.trace);
    } else {
      var prefix := events[..|events| - 1];
      var e := events[|events| - 1];
      var extra := if e.FromWebview? && e.msg.Resize? then [(e.msg.cols, e.msg.rows)] else [];
      RunForwardsResizes(s, prefix);
      StepResizes(Run(s, prefix), e);
      assert (Resizes(s.trace) + ResizeRequests(prefix)) + extra == Resizes(s.trace) + (ResizeRequests(prefix) + extra);
    }
  }

  /** Only `dispose` touches the listeners and the panel: it releases the list and disposes the panel once. */
  lemma StepPanelViews(s: Session, e: Event)
    ensures Step(s, e).disposables == if e.DisposeCall? then [] else s.disposables
    ensures Releases(Step(s, e).trace) == Releases(s.trace) + (if e.DisposeCall? then Releases(ReleaseAll(s.disposables)) else [])
    ensures StatePosts(Step(s, e).trace) == StatePosts(s.trace)
    ensures PanelDisposals(Step(s, e).trace) == PanelDisposals(s.trace) + (if e.DisposeCall? then 1 else 0)
  {
    match e
    case PtyOutput(data) =>
      PanelViewsSnoc(s.trace, Post(DataOut(data)));
      assert Releases(s.trace) + [] == Releases(s.trace) && StatePosts(s.trace) + [] == StatePosts(s.trace);
    case FromWebview(msg) =>
      MessageLeavesPanel(s, msg);
      assert Releases(s.trace) + [] == Releases(s.trace);
    case DisposeCall =>
      DisposePanelViews(s);
  }

  /** The listeners stay registered until the first `dispose`, and none remain after it. */
  lemma {:induction false} RunKeepsListeners(s: Session, events: seq<Event>)
    ensures Run(s, events).disposables == if DisposeCount(events) == 0 then s.disposables else []
  {
    if events != [] {
      var prefix := events[..|events| - 1];
      RunKeepsListeners(s, prefix);
      StepPanelViews(Run(s, prefix), events[|events| - 1]);
    }
  }

  /**
   * Over any events, the listeners are released once, by the first `dispose`; the panel
   * is disposed once per `dispose`; and no state is posted.
   */
  lemma {:induction false} RunTearsDown(s: Session, events: seq<Event>)
    ensures Releases(Run(s, events).trace)
         == Releases(s.trace) + (if DisposeCount(events) == 0 then [] else Releases(ReleaseAll(s.disposables)))
    ensures StatePosts(Run(s, events).trace) == StatePosts(s.trace)
    ensures PanelDisposals(Run(s, events).trace) == PanelDisposals(s.trace) + DisposeCount(events)
  {
    if events == [] {
      assert Releases(s.trace) + [] == Releases(s.trace);
    } else {
      var prefix := events[..|events| - 1];
      var e := events[|events| - 1];
      var before := Run(s, prefix);
      RunTearsDown(s, prefix);
      RunKeepsListeners(s, prefix);
      StepPanelViews(before, e);
      if DisposeCount(prefix) == 0 {
        assert Releases(s.trace) + [] == Releases(s.trace);
      } else {
        assert Releases(ReleaseAll(before.disposables)) == [] by {
          assert before.disposables == [];
          ReleasesOfReleaseAll([]);
        }
        assert Releases(before.trace) + [] == Releases(before.trace);
      }
    }
  }

  /** Only a webview `ready` sets the flag, and nothing clears it. */
  lemma StepReady(s: Session, e: Event)
    ensures Step(s, e).ready <==> s.ready || e == FromWebview(Ready)
  {
  }

  /** The flag is set after some events exactly when it was set before or one of them is a webview `ready`. */
  lemma {:induction false} ReadyTracksMessage(s: Session, events: seq<Event>)
    ensures Run(s, events).ready <==> s.ready || FromWebview(Ready) in events
  {
    if events != [] {
      var prefix := events[..|events| - 1];
      var last := events[|events| - 1];
      ReadyTracksMessage(s, prefix);
      StepReady(Run(s, prefix), last);
      assert events == prefix + [last];
      assert FromWebview(Ready) in events <==> FromWebview(Ready) in prefix || last == FromWebview(Ready);
    }
  }

  /** Replaying events on a fresh history gathers the chunks, keystrokes and dispose calls. */
  lemma {:induction false} ReplayGathers(launchInput: seq<string>, events: seq<Event>)
    ensures Replay(History([], [], launchInput, 0), events)
         == History(PtyChunks(events), Keystrokes(events), launchInput, DisposeCount(events))
  {
    if events != [] {
      ReplayGathers(launchInput, events[..|events| - 1]);
    }
  }

  /**
   * Whatever the host delivers, from the moment the session starts: the data posted
   * to the webview followed by the queue is all the pty output in arrival order;
   * before `ready` nothing is posted; once ready everything has been posted; the pty
   * receives the launch command (fallback only) and then exactly the webview's
   * keystrokes; it is resized exactly as the webview requested, in order; and it is
   * killed once per dispose call.
   */
  lemma SessionDelivers(prelude: seq<Effect>, cwd: string, isWin32: bool, primaryOk: bool, fallbackOk: bool,
                        events: seq<Event>)
    requires primaryOk || fallbackOk
    requires DataPosted(prelude) == [] && PtyInput(prelude) == [] && Resizes(prelude) == [] && Kills(prelude) == 0
    ensures var s := Run(Start(prelude, cwd, isWin32, primaryOk, fallbackOk), events);
      && DataPosted(s.trace) + s.buffer == PtyChunks(events)
      && (!s.ready ==> DataPosted(s.trace) == [] && s.buffer == PtyChunks(events))
      && (s.ready ==> DataPosted(s.trace) == PtyChunks(events))
      && (s.ready <==> FromWebview(Ready) in events)
      && PtyInput(s.trace) == StartHistory(primaryOk).launchInput + Keystrokes(events)
      && Resizes(s.trace) == ResizeRequests(events)
      && Kills(s.trace) == DisposeCount(events)
  {
    var start := Start(prelude, cwd, isWin32, primaryOk, fallbackOk);
    StartEstablishesInv(prelude, cwd, isWin32, primaryOk, fallbackOk);
    RunPreservesInv(start, StartHistory(primaryOk), events);
    ReadyTracksMessage(start, events);
    ReplayGathers(StartHistory(primaryOk).launchInput, events);
    assert Resizes(Run(start, events).trace) == ResizeRequests(events) by {
      StartResizesNothing(prelude, cwd, isWin32, primaryOk, fallbackOk);
      RunForwardsResizes(start, events);
      assert [] + ResizeRequests(events) == ResizeRequests(events);
    }
  }

  /**
   * Whatever the host delivers, from the moment the session starts: the two listeners
   * stay registered until the first dispose call, which releases them last-registered
   * first, and later calls release nothing; the panel is disposed once per dispose
   * call; and no `set-state` is posted beyond what `prelude` posted, so every post
   * after the start is a `data` post.
   */
  lemma SessionTearsDown(prelude: seq<Effect>, cwd: string, isWin32: bool, primaryOk: bool, fallbackOk: bool,
                         events: seq<Event>)
    requires primaryOk || fallbackOk
    ensures var s := Run(Start(prelude, cwd, isWin32, primaryOk, fallbackOk), events);
      && s.disposables == (if DisposeCount(events) == 0 then [MessageListener, DisposeListener] else [])
      && Releases(s.trace)
         == Releases(prelude) + (if DisposeCount(events) == 0 then [] else [DisposeListener, MessageListener])
      && PanelDisposals(s.trace) == PanelDisposals(prelude) + DisposeCount(events)
      && StatePosts(s.trace) == StatePosts(prelude)
  {
    var start := Start(prelude, cwd, isWin32, primaryOk, fallbackOk);
    var registered := [MessageListener, DisposeListener];
    assert Releases(ReleaseAll(registered)) == [DisposeListener, MessageListener] by {
      ReleasesOfReleaseAll(registered);
      assert registered[..1] == [MessageListener];
      assert [MessageListener][..0] == [];
    }
    StartPanelViews(prelude, cwd, isWin32, primaryOk, fallbackOk);
    RunKeepsListeners(start, events);
    RunTearsDown(start, events);
  }

  class LazygitPanel {
    /** `_isWebviewReady` */
    var ready: bool
    /** `_dataBuffer`: pty output received before the webview was ready, oldest first. */
    var buffer: seq<string>
    /** `_disposables` */
    var disposables: seq<Disposable>
    /** Every call made into the webview panel and the pty, in order. */
    var trace: seq<Effect>

    ghost var received: seq<string>
    ghost var typed: seq<string>
    ghost var launchInput: seq<string>
    ghost var disposeCalls: nat

    function State(): Session
      reads this
    {
      Session(ready, buffer, disposables, trace)
    }

    ghost function Hist(): History
      reads this
    {
      History(received, typed, launchInput, disposeCalls)
    }

    ghost predicate Valid()
      reads this
    {
      Inv(State(), Hist())
    }

    /**
     * The session start: `prelude` holds what was already done to the panel (its
     * creation and the set-state post for a new panel, nothing for a revived one).
     * The constructor returns only when one of the two spawns succeeds.
     */
    constructor (prelude: seq<Effect>, cwd: string, isWin32: bool, primarySpawnOk: bool, fallbackSpawnOk: bool)
      requires primarySpawnOk || fallbackSpawnOk
      requires DataPosted(prelude) == [] && PtyInput(prelude) == [] && Kills(prelude) == 0
      ensures State() == Start(prelude, cwd, isWin32, primarySpawnOk, fallbackSpawnOk)
      ensures Hist() == StartHistory(primarySpawnOk)
      ensures Valid()
    {
      var s := Start(prelude, cwd, isWin32, primarySpawnOk, fallbackSpawnOk);
      StartEstablishesInv(prelude, cwd, isWin32, primarySpawnOk, fallbackSpawnOk);
      ready, buffer, disposables, trace := s.ready, s.buffer, s.disposables, s.trace;
      received, typed, disposeCalls := [], [], 0;
      launchInput := StartHistory(primarySpawnOk).launchInput;
    }

    /**
     * `createOrShow`: open a new panel, post its cwd as set-state, then start the session;
     * the panel stays open, blank, when the session cannot start.
     */
    static method CreateOrShow(cwd: string, isWin32: bool, primarySpawnOk: bool, fallbackSpawnOk: bool)
      returns (r: Opening)
      ensures r.Opened? <==> primarySpawnOk || fallbackSpawnOk
      ensures r.Opened? ==>
        && fresh(r.panel)
        && r.panel.State() == Start(Announce(cwd), cwd, isWin32, primarySpawnOk, fallbackSpawnOk)
        && r.panel.Hist() == StartHistory(primarySpawnOk)
        && r.panel.Valid()
      ensures r.Stranded? ==> r.trace == Announce(cwd) + Launch(cwd, isWin32, primarySpawnOk, fallbackSpawnOk).effects
    {
      var prelude := Announce(cwd);
      if primarySpawnOk || fallbackSpawnOk {
        QuietTrace(prelude);
        var p := new LazygitPanel(prelude, cwd, isWin32, primarySpawnOk, fallbackSpawnOk);
        r := Opened(p);
      } else {
        r := Stranded(prelude + Launch(cwd, isWin32, primarySpawnOk, fallbackSpawnOk).effects);
      }
    }

    /**
     * `revive`: start a session on a panel the editor restored with its saved cwd; the
     * panel stays blank when the session cannot start.
     */
    static method Revive(cwd: string, isWin32: bool, primarySpawnOk: bool, fallbackSpawnOk: bool)
      returns (r: Opening)
      ensures r.Opened? <==> primarySpawnOk || fallbackSpawnOk
      ensures r.Opened? ==>
        && fresh(r.panel)
        && r.panel.State() == Start([], cwd, isWin32, primarySpawnOk, fallbackSpawnOk)
        && r.panel.Hist() == StartHistory(primarySpawnOk)
        && r.panel.Valid()
      ensures r.Stranded? ==> r.trace == Launch(cwd, isWin32, primarySpawnOk, fallbackSpawnOk).effects
    {
      if primarySpawnOk || fallbackSpawnOk {
        var p := new LazygitPanel([], cwd, isWin32, primarySpawnOk, fallbackSpawnOk);
        r := Opened(p);
      } else {
        r := Stranded(Launch(cwd, isWin32, primarySpawnOk, fallbackSpawnOk).effects);
      }
    }

    method OnPtyData(data: string)
      requires Valid()
      modifies this
      ensures State() == AfterPtyData(old(State()), data)
      ensures Hist() == old(Hist()).(received := old(received) + [data])
      ensures Valid()
    {
      PtyDataPreservesInv(State(), Hist(), data);
      if ready {
        trace := trace + [Post(DataOut(data))];
      } else {
        buffer := buffer + [data];
      }
      received := received + [data];
    }

    method OnMessage(msg: Message)
      requires Valid()
      modifies this
      ensures State() == AfterMessage(old(State()), msg)
      ensures Hist() == if msg.Data? then old(Hist()).(typed := old(typed) + [msg.data]) else old(Hist())
      ensures Valid()
    {
      ghost var before, h := State(), Hist();
      MessagePreservesInv(before, h, msg);
      match msg {
        case Ready =>
          ready := true;
          DrainBuffer();
        case Data(data) =>
          trace := trace + [PtyWrite(data)];
          typed := typed + [data];
        case Resize(cols, rows) =>
          trace := trace + [PtyResize(cols, rows)];
        case Other(_) =>
      }
      assert State() == AfterMessage(before, msg);
    }

    /** The flush loop run on `ready`: shift each queued chunk off the front and post it. */
    method DrainBuffer()
      modifies this`buffer, this`trace
      ensures buffer == [] && trace == old(trace) + Flush(old(buffer))
    {
      var queue, posted := buffer, trace;
      while |queue| > 0
        invariant posted + Flush(queue) == old(trace) + Flush(old(buffer))
      {
        var data := queue[0];
        var rest := queue[1..];
        assert (posted + [Post(DataOut(data))]) + Flush(rest) == posted + Flush(queue) by {
          assert Flush(queue) == [Post(DataOut(data))] + Flush(rest);
        }
        queue := rest;
        posted := posted + [Post(DataOut(data))];
      }
      assert posted + Flush([]) == posted;
      buffer, trace := queue, posted;
    }

    /** Kill the pty, dispose the panel, then pop and release every registered listener. */
    method Dispose()
      requires Valid()
      modifies this
      ensures State() == AfterDispose(old(State()))
      ensures Hist() == old(Hist()).(disposeCalls := old(disposeCalls) + 1)
      ensures Valid()
    {
      DisposePreservesInv(State(), Hist());
      var effects := trace + [PtyKill, PanelDispose];
      disposeCalls := disposeCalls + 1;
      ghost var stopped := effects;
      var items := disposables;
      while |items| > 0
        invariant effects + ReleaseAll(items) == stopped + ReleaseAll(old(disposables))
      {
        var x := items[|items| - 1];
        var rest := items[..|items| - 1];
        assert (effects + [Release(x)]) + ReleaseAll(rest) == effects + ReleaseAll(items) by {
          assert ReleaseAll(items) == [Release(x)] + ReleaseAll(rest);
        }
        items := rest;
        effects := effects + [Release(x)];
      }
      assert effects + ReleaseAll([]) == effects;
      disposables, trace := items, effects;
    }
  }
}
